=== FILE: README.md ===
# ShareLocation — a Dafny model of its screen logic

ShareLocation is an Android client that signs users in, reports each user's position to a
document store (collection `pessoa`, one document per user id) and shows every user as a
marker on a map. Almost all of it is calls into the auth provider, the document store and
the map SDK. This project models the sequential logic around those calls:

- **Marker reconciliation** (`MapsActivity.fetchAllUsersAndUpdateMarkers`). One pass over
  the collection updates `userMarkers: userId -> Marker`. A record takes part only if it
  has a latitude, a longitude and a `nome`. A known id has its marker moved in place. An
  unknown id gets a new marker only if `addMarker` returned one. No entry is ever removed.
- **The rest of the map screen.** The logout button writes the sentinel position
  (0.0, 0.0). With a signed-in user, only a successful write removes the user's own entry and signs out. The
  user's own marker (`currentMarker`) is removed before it is replaced, and its title
  depends on the profile read. The camera animates on the first location fix only.
- **Sign-up** (`CreateAccountActivity`). A first-failure-wins chain of field checks runs
  first. Then comes the "email already used" loop over the query result. Then the account
  is created, the profile document is written with `set`, and the user is signed in.
- **Login** (`LoginActivity`). An existing session goes straight to the map. Otherwise the
  button's guard and `when` decide between a message and a sign-in. The `when`'s
  password-length branch can never fire, so any non-empty email and password are sent to
  sign-in, whatever the password's length.

The platform is modelled as inputs, and each handler as a pure function.
- What the SDKs answer is a parameter: a query result or its failure, the `Option` that
  `addMarker` returns, and a success flag for each write or sign-in.
- What a handler asks of the platform is an ordered `seq<Effect>`, in the order the code
  issues the requests.
- Kotlin's `String.length` counts UTF-16 code units; the model counts them too
  (`App.Utf16Length`), so a character outside the Basic Multilingual Plane counts two.
- Coordinates are `real` values that are only carried and compared, never computed with
  (`Store.Degrees`). The sentinel is `Store.Sentinel`.

Modules: `Wrappers` (Option), `Store` (document values, `getString`/`getDouble`, `set` and
`update`), `App` (screens, effects, messages), `Markers`, `Session`, `CreateAccount`,
`Login`, `Scenarios` (facts that combine screens).

Behaviours of the code worth knowing, which the model keeps as written:
- A failed sentinel write on logout does not sign the user out. The handler only shows
  an error.
- Reconciliation skips a record without `nome`. It does not show it under a placeholder
  title. The placeholder "Usuário Desconhecido" is used only for the user's own marker.
- Logout stops the location service. On both sign-out paths the screen then closes, and
  closing it removes the map screen's own tick. After a failed sentinel write the screen
  stays open and the tick keeps running.
- A missing location permission is requested again on every tick. The tick never stops
  because of it.
- A logged-out user's document still has its `nome` and now holds (0.0, 0.0).
  Reconciliation therefore keeps showing that user, at (0.0, 0.0)
  (`Scenarios.LoggedOutUserShownAtSentinel`).

## Model

| member | source | states |
|---|---|---|
| `Store.GetString` | app/src/main/java/br/edu/puccampinas/sharelocation/MapsActivity.kt:203 | a field reads as a string exactly when it is present and holds text, and then it is that text; an absent field reads as null (a mistyped one too, see Left out) |
| `Store.GetDouble` | app/src/main/java/br/edu/puccampinas/sharelocation/MapsActivity.kt:201-202 | a field reads as a number exactly when it is present and holds a number; an absent field reads as null (a mistyped one too, see Left out) |
| `App.Utf16Length` | app/src/main/java/br/edu/puccampinas/sharelocation/CreateAccountActivity.kt:53 | Kotlin's string length: between the number of characters and twice it, and zero exactly for the empty string |
| `Store.SetDocument` | app/src/main/java/br/edu/puccampinas/sharelocation/CreateAccountActivity.kt:134-135 | `set` replaces the document: afterwards it has exactly the written fields; other documents are unchanged |
| `Store.UpdateDocument` | app/src/main/java/br/edu/puccampinas/sharelocation/MapsActivity.kt:85-86 | `update` fails iff the document is missing; otherwise it overwrites the named fields, keeps every other field and leaves other documents alone |
| `Markers.Step` | app/src/main/java/br/edu/puccampinas/sharelocation/MapsActivity.kt:201-221 | an incomplete record changes nothing; only the record's own entry can change; an existing marker keeps its handle and title and moves to the record's position; a new entry exists iff `addMarker` returned a marker, titled with `nome` at the record's position |
| `Markers.Reconcile` | app/src/main/java/br/edu/puccampinas/sharelocation/MapsActivity.kt:200-223 | a pass never removes a key, never replaces a handle or title, and adds keys only for complete records |
| `Markers.ApplySnapshot` | app/src/main/java/br/edu/puccampinas/sharelocation/MapsActivity.kt:200-223 | the in-place loop over the snapshot computes the same map as the functional pass |
| `Markers.FetchAllUsersAndUpdateMarkers` | app/src/main/java/br/edu/puccampinas/sharelocation/MapsActivity.kt:196-232 | a failed read leaves the map unchanged and reports the error; a successful one is exactly the reconciliation pass over the snapshot (`Markers.Reconcile`), so it keeps every key and handle and issues no request of its own |
| `Markers.ReconcileUntouched` | app/src/main/java/br/edu/puccampinas/sharelocation/MapsActivity.kt:206 | an id with no complete record in the snapshot keeps its entry, or its absence, exactly |
| `Markers.ReconcileLastFixWins` | app/src/main/java/br/edu/puccampinas/sharelocation/MapsActivity.kt:208-210 | every marker of an id in the snapshot ends at the position of that id's last complete record |
| `Markers.ReconcileCovers` | app/src/main/java/br/edu/puccampinas/sharelocation/MapsActivity.kt:211-220 | when `addMarker` never returns null, the keys after a pass are the old keys plus every complete record's id |
| `Markers.ReconcileNewEntry` | app/src/main/java/br/edu/puccampinas/sharelocation/MapsActivity.kt:211-220 | every new entry comes from the first complete record with that id whose `addMarker` call returned a marker (every earlier one got null), holds that marker, and is titled with its `nome` |
| `Markers.ReconcileStable` | app/src/main/java/br/edu/puccampinas/sharelocation/MapsActivity.kt:200-223 | whatever `addMarker` answers in either pass, a second pass over the same snapshot leaves every entry present after the first exactly as it was |
| `Markers.ReconcileIdempotent` | app/src/main/java/br/edu/puccampinas/sharelocation/MapsActivity.kt:200-223 | once a pass has an entry for every complete record (always so when no `addMarker` call returned null), a second pass on the same snapshot creates nothing and returns the map unchanged, whatever the SDK would answer |
| `Session.Logout` | app/src/main/java/br/edu/puccampinas/sharelocation/MapsActivity.kt:72-111 | the service stops first. With a user, (0.0, 0.0) is written for that user as the very next request, before any sign-out. On success exactly that key is removed, its marker (if any) is taken off the map, and sign-out follows the write; no marker is removed otherwise. On failure there is no sign-out and no map change, and the failure message is shown exactly then. With no user, sign-out comes directly with nothing written. The screen closes exactly on the sign-out paths. The handler issues no request outside this list |
| `Session.OwnTitle` | app/src/main/java/br/edu/puccampinas/sharelocation/MapsActivity.kt:173-191 | the own marker's title is `nome` when the profile has one, "Usuário Desconhecido" when the profile or its name is missing, "Erro ao buscar nome" when the read fails |
| `Session.PlaceMarkerOnMap` | app/src/main/java/br/edu/puccampinas/sharelocation/MapsActivity.kt:235-245 | the previous own marker is removed before the new one is added, so at most one own marker is on the map; a null reply leaves none |
| `Session.FetchUserNameAndPlaceMarker` | app/src/main/java/br/edu/puccampinas/sharelocation/MapsActivity.kt:168-194 | without a signed-in user nothing changes and nothing is read; otherwise the profile is read and the own marker is replaced by one titled as `OwnTitle` chooses, or by none when `addMarker` returns null; a failed read shows "Erro ao buscar nome do usuário", exactly then; the read and that message are its only requests |
| `Session.PlaceAll` | app/src/main/java/br/edu/puccampinas/sharelocation/MapsActivity.kt:235-245 | over any number of placements there is never more than one own marker, and the last placement decides it |
| `Session.GetCurrentLocation` | app/src/main/java/br/edu/puccampinas/sharelocation/MapsActivity.kt:148-166 | without permission only a permission request happens; a fix is reported; the camera animates to it iff the flag is set, and the flag is cleared exactly then |
| `Session.ClearedCameraNeverAnimates` | app/src/main/java/br/edu/puccampinas/sharelocation/MapsActivity.kt:160-163 | once the flag is cleared no later tick animates the camera |
| `Session.CameraAnimatesOnce` | app/src/main/java/br/edu/puccampinas/sharelocation/MapsActivity.kt:52-163 | from the initial flag the camera animates at most once, exactly when some tick delivers a fix, and to the first fix |
| `CreateAccount.Validate` | app/src/main/java/br/edu/puccampinas/sharelocation/CreateAccountActivity.kt:43-58 | each message is shown exactly when its rule is the first to fail (name, email, password, length < 6 in UTF-16 code units, confirmation); the form passes iff all rules hold |
| `CreateAccount.EmojiPasswordAccepted` | app/src/main/java/br/edu/puccampinas/sharelocation/CreateAccountActivity.kt:53-59 | a confirmed password of three emoji (six code units) passes every rule |
| `CreateAccount.EmptyPasswordNotShort` | app/src/main/java/br/edu/puccampinas/sharelocation/CreateAccountActivity.kt:50-57 | an empty password never gets the length message; a mismatch is reported only for a password of at least six characters |
| `CreateAccount.EmailAlreadyUsed` | app/src/main/java/br/edu/puccampinas/sharelocation/CreateAccountActivity.kt:65-72 | the flag ends true iff some returned record's `email` equals the input, although `return@forEach` does not stop the loop |
| `CreateAccount.ProfileRecord` | app/src/main/java/br/edu/puccampinas/sharelocation/CreateAccountActivity.kt:125-130 | the profile document has exactly the fields `nome`, `email`, `senha`, holding the form's values |
| `CreateAccount.CreateButton` | app/src/main/java/br/edu/puccampinas/sharelocation/CreateAccountActivity.kt:36-122 | an invalid form gets one message only. Account creation is requested iff the form is valid and the email query succeeded without a match. A used email stops before creation, and a failed email query shows "Erro ao verificar o email" and stops too. Once the account is requested, the rest of the press is exactly what the creation listeners (`CreateAccount.AfterCreation`) do. The profile write and sign-in come only after a successful creation, in that order. The map opens only after sign-in and an existing profile |
| `CreateAccount.AfterCreation` | app/src/main/java/br/edu/puccampinas/sharelocation/CreateAccountActivity.kt:79-113 | a failed creation is reported by both listeners; a successful one writes the profile under the new uid, then signs in, and always closes the screen; a failed sign-in shows "Falha na autenticação" and closes the screen, nothing else. Each failure message appears exactly on its own failure. A successful sign-in reads the profile, closes the screen, and at most navigates to the map |
| `CreateAccount.ProfileWriteShape` | app/src/main/java/br/edu/puccampinas/sharelocation/CreateAccountActivity.kt:125-135 | after the profile write, the new user's document holds exactly `nome`, `email`, `senha` with the form's name and email |
| `Login.Decide` | app/src/main/java/br/edu/puccampinas/sharelocation/LoginActivity.kt:47-64 | an empty email gets "Preencha seu email"; a filled email with empty password gets "Preencha sua senha". The length message never appears. Sign-in is chosen iff both fields are non-empty, whatever the length |
| `Login.LoginFlow` | app/src/main/java/br/edu/puccampinas/sharelocation/LoginActivity.kt:32-84 | an existing session goes straight to the map and the form never runs. A rejected form shows exactly the message `Login.Decide` chose, never the dead length message. Sign-in is requested iff there is no session and both fields are filled. The map opens only after a successful sign-in and an existing profile. The invalid-credentials message is shown exactly when a sign-in was sent and failed. A successful sign-in reads the profile, then at most navigates to the map |
| `Scenarios.NewAccountNotShown` | app/src/main/java/br/edu/puccampinas/sharelocation/MapsActivity.kt:200-206 | a freshly written profile has no coordinates, so reconciliation ignores it |
| `Scenarios.LoggedOutUserShownAtSentinel` | app/src/main/java/br/edu/puccampinas/sharelocation/MapsActivity.kt:80-91 | after the logout write the document is complete with position (0.0, 0.0); reconciliation moves that user's marker there instead of removing it |
| `Scenarios.MarkerFollowsUser` | app/src/main/java/br/edu/puccampinas/sharelocation/MapsActivity.kt:208-219 | a user seen by two passes keeps the marker (handle, title) the first pass created, moved to the second position |

## Left out

- LocationService.kt is not part of this model. It only sets up the foreground service and
  notification and forwards location updates to the store, which is all I/O.
- The 1000 ms `Handler` loop and the ordering of asynchronous writes and callbacks are
  timing and concurrency. Each handler is modelled as one sequential run, with the
  platform's answers as inputs.
- The internals of the auth provider, the document store and the map SDK are left out.
  Only their replies are modelled, and `update`/`set` as map operations.
- `salvarLocalizacaonoFirestore` (the position write on every tick) appears only as the
  `reportAt` position of `Session.GetCurrentLocation`. Its failure toast is not modelled.
- The success ("Bem-vindo") and failure notices of the profile write are not modelled.
  Those listeners run at an unspecified later time.
- Exception texts appended to error messages, colours, Toast versus Snackbar, and the
  permission dialog are left out.
- The text-link navigations (`etLogin`, `etCriar`), `onMarkerClick`, `setUpMap` and the
  first fetch in `onMapReady` are left out. That first fetch is the same pass as
  `Markers.FetchAllUsersAndUpdateMarkers`.
- The server-side `whereEqualTo("email", …)` filter is not modelled. The query result is
  an arbitrary list of records, which the client loop re-checks anyway.
- Store.GetString: a present field of another type makes the SDK throw, which would end the
  listener; the model reads it as absent, so reconciliation skips that record and goes on.
- Store.GetDouble: likewise, a present field that is not a number reads as absent instead of
  throwing and ending the pass.
- Markers.Reconcile: takes one `addMarker` reply per snapshot record (`|replies| == |docs|`).
  This models the SDK's answers; the source itself demands nothing of its caller.
- Markers.ReconcileIdempotent: equality of the whole map needs every complete record to have
  an entry after the first pass. If an `addMarker` call returned null, the second pass may add
  that id; `Markers.ReconcileStable` covers the entries that do exist.
- Storing the password in the profile document is modelled only as the record's field set.

=== FILE: app.dfy ===
/** What the three activities share: the screens, the side effects a handler
    issues, and the user-visible strings. */
module App {
  import opened Store

  datatype Screen = LoginScreen | MapsScreen

  /** The map SDK's handle for a marker it created; identity of the on-screen object. */
  type MarkerId = nat

  /** A side effect requested from the platform, in the order a handler requests it. */
  datatype Effect =
    | StopLocationService
    | UpdateDoc(uid: UserId, fields: Record)
    | SetDoc(uid: UserId, fields: Record)
    | QueryByEmail(email: string)
    | GetDoc(uid: UserId)
    | RemoveMarker(handle: MarkerId)
    | CreateUser(email: string, password: string)
    | SignIn(email: string, password: string)
    | SignOut
    | Navigate(to: Screen)
    | Finish
    | Notice(text: string)

  /** Kotlin's `String.length`: the number of UTF-16 code units, which is two for a
      character outside the Basic Multilingual Plane and one for any other. */
  function Utf16Length(s: string): (n: nat)
    ensures |s| <= n <= 2 * |s|
    ensures n == 0 <==> s == []
    decreases |s|
  {
    if |s| == 0 then 0
    else (if s[0] as int >= 0x10000 then 2 else 1) + Utf16Length(s[1..])
  }

  /** Three emoji are six code units long, though only three characters. */
  lemma EmojiPasswordLength()
    ensures |"\U{1F600}\U{1F600}\U{1F600}"| == 3
    ensures Utf16Length("\U{1F600}\U{1F600}\U{1F600}") == 6
  {
  }

  /** The read of a user's profile after sign-in: failed (no listener runs), or whether
      the document exists. */
  datatype ProfileRead = ReadError | ReadDone(found: bool)

  /** `a` is issued strictly before `b`. */
  predicate Precedes(effects: seq<Effect>, a: Effect, b: Effect) {
    exists i, j :: 0 <= i < j < |effects| && effects[i] == a && effects[j] == b
  }

  // Messages shown by the activities (the exception text some of them append is not modelled).
  const FillName := "Preencha seu nome"
  const FillEmail := "Preencha seu email"
  const FillPassword := "Preencha sua senha"
  const ShortPassword := "A senha precisa ter pelo menos seis caracteres"
  const PasswordMismatch := "As senhas não coincidem"
  const EmailInUse := "O email fornecido já está em uso"
  const EmailCheckFailed := "Erro ao verificar o email: "
  const CreationFailed := "Falha na criação da conta: "
  const AuthFailed := "Falha na autenticação, tente novamente"
  const InvalidCredentials := "Email ou senha inválidos, tente novamente"
  const LocationUpdateFailed := "Erro ao atualizar localização: "
  const FetchFailed := "Erro ao buscar dados: "
  const NameFetchFailed := "Erro ao buscar nome do usuário: "
  const UnknownUser := "Usuário Desconhecido"
  const NameErrorTitle := "Erro ao buscar nome"
}

=== FILE: create_account.dfy ===
/** The sign-up screen: the validation chain of the "create" button, the check that the
    email is not in use, and the sequence of account creation, profile write and sign-in. */
module CreateAccount {
  import opened Wrappers
  import opened Store
  import opened App

  /** The four text fields of the form. */
  datatype SignUpForm = SignUpForm(nome: string, email: string, senha: string, confirmarSenha: string)

  datatype Check = Rejected(message: string) | Accepted

  /** The `when` over the form: the first failing rule decides the message.  Lengths are
      Kotlin's, counted in UTF-16 code units. */
  function Validate(f: SignUpForm): (r: Check)
    ensures r.Accepted? <==> f.nome != [] && f.email != [] && Utf16Length(f.senha) >= 6 && f.senha == f.confirmarSenha
    ensures r == Rejected(FillName) <==> f.nome == []
    ensures r == Rejected(FillEmail) <==> f.nome != [] && f.email == []
    ensures r == Rejected(FillPassword) <==> f.nome != [] && f.email != [] && f.senha == []
    ensures r == Rejected(ShortPassword) <==> f.nome != [] && f.email != [] && 0 < Utf16Length(f.senha) < 6
    ensures r == Rejected(PasswordMismatch) <==> f.nome != [] && f.email != [] && Utf16Length(f.senha) >= 6 && f.senha != f.confirmarSenha
  {
    if f.nome == [] then Rejected(FillName)
    else if f.email == [] then Rejected(FillEmail)
    else if f.senha == [] then Rejected(FillPassword)
    else if Utf16Length(f.senha) < 6 then Rejected(ShortPassword)
    else if f.senha != f.confirmarSenha then Rejected(PasswordMismatch)
    else Accepted
  }

  /** An empty password is reported as missing, never as too short; a mismatch is
      reported only for a password of at least six characters. */
  lemma EmptyPasswordNotShort(f: SignUpForm)
    ensures f.senha == [] ==> Validate(f) != Rejected(ShortPassword)
    ensures Validate(f) == Rejected(PasswordMismatch) ==> Utf16Length(f.senha) >= 6
  {
  }

  /** A password of three emoji is six code units long for Kotlin: it passes the length
      rule and, when confirmed, the whole form. */
  lemma EmojiPasswordAccepted(nome: string, email: string)
    requires nome != [] && email != []
    ensures Validate(SignUpForm(nome, email, "\U{1F600}\U{1F600}\U{1F600}", "\U{1F600}\U{1F600}\U{1F600}")) == Accepted
  {
  }

  /** Some returned record carries exactly this email. */
  predicate EmailIn(pessoas: seq<Record>, email: string) {
    exists i :: 0 <= i < |pessoas| && GetString(pessoas[i], "email") == Some(email)
  }

  /** The loop over the query result: sets the flag for every record whose `email`
      equals the input.  `return@forEach` only leaves the current iteration, so the
      loop visits every record. */
  method EmailAlreadyUsed(pessoas: seq<Record>, email: string) returns (contaJaExiste: bool)
    ensures contaJaExiste <==> EmailIn(pessoas, email)
  {
    contaJaExiste := false;
    var i := 0;
    while i < |pessoas|
      invariant 0 <= i <= |pessoas|
      invariant contaJaExiste <==> exists j :: 0 <= j < i && GetString(pessoas[j], "email") == Some(email)
    {
      if GetString(pessoas[i], "email") == Some(email) {
        contaJaExiste := true;
      }
      i := i + 1;
    }
  }

  /** `salvarDadosNoFirestore`: the document written for a new account. */
  function ProfileRecord(nome: string, email: string, senha: string): (r: Record)
    ensures r.Keys == {"nome", "email", "senha"}
    ensures GetString(r, "nome") == Some(nome) && GetString(r, "email") == Some(email) && GetString(r, "senha") == Some(senha)
  {
    map["nome" := Text(nome), "email" := Text(email), "senha" := Text(senha)]
  }

  /** The replies of the platform to the requests of one press of the button. */
  datatype EmailQuery = QueryError | QueryResult(pessoas: seq<Record>)
  datatype Creation = CreateError | Created(uid: UserId)

  /** One press of the "create" button, as the sequence of effects it causes. */
  function CreateButton(f: SignUpForm, query: EmailQuery, creation: Creation, signInOk: bool, profile: ProfileRead): (effects: seq<Effect>)
    // an invalid form is answered by one message and nothing else
    ensures Validate(f).Rejected? ==> effects == [Notice(Validate(f).message)]
    // a valid form always queries the store for the email first
    ensures Validate(f).Accepted? ==> |effects| > 0 && effects[0] == QueryByEmail(f.email)
    // the account is created iff the form is valid, the query succeeded and found no record with that email
    ensures (CreateUser(f.email, f.senha) in effects)
              <==> Validate(f).Accepted? && query.QueryResult? && !EmailIn(query.pessoas, f.email)
    ensures forall e :: e in effects && e.CreateUser? ==> e == CreateUser(f.email, f.senha)
    ensures (Validate(f).Accepted? && query.QueryResult? && EmailIn(query.pessoas, f.email))
              ==> effects == [QueryByEmail(f.email), Notice(EmailInUse)]
    // a failed email query is reported and stops the press
    ensures Validate(f).Accepted? && query.QueryError? ==> effects == [QueryByEmail(f.email), Notice(EmailCheckFailed)]
    // once the account is requested, the creation listeners decide the rest
    ensures (Validate(f).Accepted? && query.QueryResult? && !EmailIn(query.pessoas, f.email))
              ==> effects == [QueryByEmail(f.email), CreateUser(f.email, f.senha)] + AfterCreation(f, creation, signInOk, profile)
    // the profile write and the sign-in happen only after a successful creation, in that order
    ensures forall e :: e in effects && (e.SetDoc? || e.SignIn?) ==> CreateUser(f.email, f.senha) in effects && creation.Created?
    ensures CreateUser(f.email, f.senha) in effects && creation.Created? ==>
              var write := SetDoc(creation.uid, ProfileRecord(f.nome, f.email, f.senha));
              && Precedes(effects, CreateUser(f.email, f.senha), write)
              && Precedes(effects, write, SignIn(f.email, f.senha))
    // the map is opened only after a successful sign-in and an existing profile
    ensures Navigate(MapsScreen) in effects <==> CreateUser(f.email, f.senha) in effects && creation.Created? && signInOk && profile == ReadDone(true)
  {
    match Validate(f)
    case Rejected(m) => [Notice(m)]
    case Accepted =>
      match query
      case QueryError => [QueryByEmail(f.email), Notice(EmailCheckFailed)]
      case QueryResult(pessoas) =>
        if EmailIn(pessoas, f.email) then [QueryByEmail(f.email), Notice(EmailInUse)]
        else
          var after := AfterCreation(f, creation, signInOk, profile);
          var all := [QueryByEmail(f.email), CreateUser(f.email, f.senha)] + after;
          assert all[1] == CreateUser(f.email, f.senha);
          assert creation.Created? ==> all[2] == after[0] && all[3] == after[1];
          all
  }

  /** The listeners of `createUserWithEmailAndPassword`.  On failure both the completion
      listener and the failure listener run, so the failure is reported twice. */
  function AfterCreation(f: SignUpForm, creation: Creation, signInOk: bool, profile: ProfileRead): (effects: seq<Effect>)
    ensures forall e :: e in effects ==> !e.CreateUser? && !e.QueryByEmail?
    ensures creation.CreateError? ==> effects == [Notice(CreationFailed), Notice(CreationFailed)]
    ensures creation.Created? ==> |effects| >= 3 && effects[0] == SetDoc(creation.uid, ProfileRecord(f.nome, f.email, f.senha))
                                  && effects[1] == SignIn(f.email, f.senha)
    ensures forall e :: e in effects ==> (e.SetDoc? || e.SignIn?) ==> creation.Created?
    ensures Navigate(MapsScreen) in effects <==> creation.Created? && signInOk && profile == ReadDone(true)
    // a failed sign-in is reported and the screen closes, with no profile read
    ensures creation.Created? && !signInOk ==> effects[2..] == [Notice(AuthFailed), Finish]
    // after a successful creation the screen always closes
    ensures creation.Created? ==> Finish in effects
    // each failure message appears exactly on its own failure
    ensures Notice(AuthFailed) in effects <==> creation.Created? && !signInOk
    ensures Notice(CreationFailed) in effects <==> creation.CreateError?
    // a successful sign-in reads the profile and closes the screen, then at most navigates
    ensures creation.Created? && signInOk ==> |effects| >= 4 && effects[2..4] == [GetDoc(creation.uid), Finish] && |effects| <= 5
  {
    match creation
    case CreateError => [Notice(CreationFailed), Notice(CreationFailed)]
    case Created(uid) =>
      [SetDoc(uid, ProfileRecord(f.nome, f.email, f.senha)), SignIn(f.email, f.senha)] +
      if !signInOk then [Notice(AuthFailed), Finish]
      else
        // `finish()` runs right after the profile read is issued; its listener navigates later
        [GetDoc(uid), Finish] + (if profile == ReadDone(true) then [Navigate(MapsScreen)] else [])
  }

  /** After the profile write of a new account, its document holds exactly the three
      profile fields under the new user's id, whatever it held before. */
  lemma ProfileWriteShape(db: Database, f: SignUpForm, uid: UserId)
    ensures var db' := SetDocument(db, uid, ProfileRecord(f.nome, f.email, f.senha));
            && db'[uid].Keys == {"nome", "email", "senha"}
            && GetString(db'[uid], "nome") == Some(f.nome)
            && GetString(db'[uid], "email") == Some(f.email)
  {
  }
}

=== FILE: login.dfy ===
/** The login screen: the shortcut for an already signed-in user, the validation of
    the "enter" button and what follows a sign-in attempt. */
module Login {
  import opened Wrappers
  import opened Store
  import opened App

  /** What the button does with the two fields: show a message, do nothing, or sign in. */
  datatype Decision = Message(text: string) | Nothing | TrySignIn(email: string, password: string)

  /** The `if` guard and the `when` inside it, as written: the `when` has no `else`, and
      its third branch tests a password the guard already knows to be empty or paired
      with an empty email. */
  function Decide(email: string, senha: string): (d: Decision)
    // sign-in is attempted for every non-empty pair, whatever the password's length
    ensures d.TrySignIn? <==> email != [] && senha != []
    ensures d.TrySignIn? ==> d == TrySignIn(email, senha)
    ensures email == [] ==> d == Message(FillEmail)
    ensures email != [] && senha == [] ==> d == Message(FillPassword)
    // the length branch never fires, and the `when` always picks some branch
    ensures d != Message(ShortPassword)
    ensures !d.Nothing?
  {
    if email == [] || senha == [] then
      if email == [] then Message(FillEmail)
      else if senha == [] then Message(FillPassword)
      else if Utf16Length(senha) <= 5 then Message(ShortPassword)
      else Nothing
    else TrySignIn(email, senha)
  }

  /** The reply to the sign-in request. */
  datatype SignInReply = SignInFailed | SignedIn(uid: UserId)

  /** The screen from its creation to the end of one press of the button.
      `currentUser` is the session found when the screen opens. */
  function LoginFlow(currentUser: Option<UserId>, email: string, senha: string,
                     reply: SignInReply, profile: ProfileRead): (effects: seq<Effect>)
    // an existing session goes straight to the map; the form never runs
    ensures currentUser.Some? ==> effects == [Navigate(MapsScreen), Finish]
    // sign-in is requested iff there is no session and both fields are filled
    ensures SignIn(email, senha) in effects <==> currentUser.None? && email != [] && senha != []
    ensures forall e :: e in effects && e.SignIn? ==> e == SignIn(email, senha)
    // without a session, the map opens only after a successful sign-in and an existing profile
    ensures currentUser.None? ==>
              (Navigate(MapsScreen) in effects <==> email != [] && senha != [] && reply.SignedIn? && profile == ReadDone(true))
    ensures (currentUser.None? && email != [] && senha != [] && reply.SignedIn? && profile == ReadDone(true))
              ==> Precedes(effects, SignIn(email, senha), Navigate(MapsScreen))
    // a rejected form shows the message the guard and `when` chose, and nothing else
    ensures currentUser.None? && Decide(email, senha).Message? ==> effects == [Notice(Decide(email, senha).text)]
    // a failed sign-in shows the invalid-credentials message
    ensures (currentUser.None? && email != [] && senha != [] && reply.SignInFailed?)
              ==> Notice(InvalidCredentials) in effects && Navigate(MapsScreen) !in effects
    ensures Notice(InvalidCredentials) in effects <==> currentUser.None? && email != [] && senha != [] && reply.SignInFailed?
    // a successful sign-in reads the profile, then at most navigates
    ensures (currentUser.None? && email != [] && senha != [] && reply.SignedIn?)
              ==> |effects| >= 2 && effects[..2] == [SignIn(email, senha), GetDoc(reply.uid)] && |effects| <= 3
  {
    if currentUser.Some? then [Navigate(MapsScreen), Finish]
    else match Decide(email, senha)
      case Message(m) => [Notice(m)]
      case Nothing => []
      case TrySignIn(e, p) =>
        match reply
        case SignInFailed => [SignIn(e, p), Notice(InvalidCredentials)]
        case SignedIn(uid) =>
          var all := [SignIn(e, p), GetDoc(uid)] + (if profile == ReadDone(true) then [Navigate(MapsScreen)] else []);
          assert profile == ReadDone(true) ==> all[2] == Navigate(MapsScreen);
          all
  }
}

=== FILE: markers.dfy ===
/** Reconciliation of the on-screen markers of all users (`fetchAllUsersAndUpdateMarkers`):
    a pass over the records of the `pessoa` collection that updates the map
    `userMarkers: userId -> Marker`.  The map SDK is an input: for each record, the
    marker `addMarker` would return if it were called for that record (None for null). */
module Markers {
  import opened Wrappers
  import opened Store
  import opened App

  /** A marker object of the map SDK: its handle, its title and its (mutable) position. */
  datatype Marker = Marker(handle: MarkerId, title: string, position: LatLng)

  type MarkerMap = map<UserId, Marker>

  /** A record takes part in reconciliation only when latitude, longitude and name are all present. */
  predicate Complete(d: Doc) {
    && GetDouble(d.fields, "latitude").Some?
    && GetDouble(d.fields, "longitude").Some?
    && GetString(d.fields, "nome").Some?
  }

  function Location(d: Doc): LatLng
    requires Complete(d)
  {
    LatLng(GetDouble(d.fields, "latitude").value, GetDouble(d.fields, "longitude").value)
  }

  function Name(d: Doc): string
    requires Complete(d)
  {
    GetString(d.fields, "nome").value
  }

  /** The ids of the complete records of a snapshot. */
  function CompleteIds(docs: seq<Doc>): set<UserId>
    decreases |docs|
  {
    if |docs| == 0 then {}
    else (if Complete(docs[0]) then {docs[0].id} else {}) + CompleteIds(docs[1..])
  }

  /** The position of the last complete record for `k` in the snapshot, if any. */
  function LastFix(docs: seq<Doc>, k: UserId): Option<LatLng>
    decreases |docs|
  {
    if |docs| == 0 then None
    else match LastFix(docs[1..], k)
      case Some(p) => Some(p)
      case None => if Complete(docs[0]) && docs[0].id == k then Some(Location(docs[0])) else None
  }

  /** One iteration of the loop over the snapshot. */
  function Step(markers: MarkerMap, d: Doc, reply: Option<MarkerId>): (r: MarkerMap)
    // an incomplete record is skipped
    ensures !Complete(d) ==> r == markers
    // no key is dropped, no handle replaced, no title rewritten
    ensures forall k :: k in markers ==> k in r && r[k].handle == markers[k].handle && r[k].title == markers[k].title
    // only the record's own entry can change
    ensures forall k :: k in markers && k != d.id ==> r[k] == markers[k]
    ensures r.Keys <= markers.Keys + {d.id}
    // an existing marker is moved to the record's position
    ensures Complete(d) && d.id in markers ==> r[d.id].position == Location(d)
    // a new marker is stored exactly when the SDK returned one, titled with the name
    ensures Complete(d) && d.id !in markers ==> (d.id in r <==> reply.Some?)
    ensures Complete(d) && d.id !in markers && reply.Some? ==> r[d.id] == Marker(reply.value, Name(d), Location(d))
  {
    if !Complete(d) then markers
    else if d.id in markers then markers[d.id := markers[d.id].(position := Location(d))]
    else match reply
      case Some(h) => markers[d.id := Marker(h, Name(d), Location(d))]
      case None => markers
  }

  /** The loop over the snapshot, records in query order; `replies[i]` is what
      `addMarker` returns should it be called for `docs[i]`. */
  function Reconcile(markers: MarkerMap, docs: seq<Doc>, replies: seq<Option<MarkerId>>): (r: MarkerMap)
    requires |replies| == |docs|
    // never removes an entry, never replaces a handle or a title
    ensures markers.Keys <= r.Keys
    ensures forall k :: k in markers ==> r[k].handle == markers[k].handle && r[k].title == markers[k].title
    // entries are added only for complete records
    ensures r.Keys <= markers.Keys + CompleteIds(docs)
    decreases |docs|
  {
    if |docs| == 0 then markers
    else Reconcile(Step(markers, docs[0], replies[0]), docs[1..], replies[1..])
  }

  /** The same loop as `fetchAllUsersAndUpdateMarkers` writes it, mutating the map in place. */
  method ApplySnapshot(markers: MarkerMap, docs: seq<Doc>, replies: seq<Option<MarkerId>>) returns (result: MarkerMap)
    requires |replies| == |docs|
    ensures result == Reconcile(markers, docs, replies)
  {
    result := markers;
    var i := 0;
    while i < |docs|
      invariant 0 <= i <= |docs|
      invariant Reconcile(result, docs[i..], replies[i..]) == Reconcile(markers, docs, replies)
    {
      var d := docs[i];
      assert docs[i..][1..] == docs[i + 1..] && replies[i..][1..] == replies[i + 1..];
      var latitude := GetDouble(d.fields, "latitude");
      var longitude := GetDouble(d.fields, "longitude");
      var userName := GetString(d.fields, "nome");
      if latitude.Some? && longitude.Some? && userName.Some? {
        var location := LatLng(latitude.value, longitude.value);
        if d.id in result {
          result := result[d.id := result[d.id].(position := location)];
        } else {
          var marker := replies[i];
          if marker.Some? {
            result := result[d.id := Marker(marker.value, userName.value, location)];
          }
        }
      }
      i := i + 1;
    }
    assert docs[i..] == [];
  }

  /** Outcome of the collection read that starts a reconciliation pass. */
  datatype Fetch = FetchError | Fetched(docs: seq<Doc>)

  datatype FetchPass = FetchPass(markers: MarkerMap, effects: seq<Effect>)

  /** `fetchAllUsersAndUpdateMarkers`: reconcile on success, report on failure. */
  function FetchAllUsersAndUpdateMarkers(markers: MarkerMap, fetch: Fetch, replies: seq<Option<MarkerId>>): (r: FetchPass)
    requires fetch.Fetched? ==> |replies| == |fetch.docs|
    ensures fetch.FetchError? ==> r.markers == markers && r.effects == [Notice(FetchFailed)]
    ensures fetch.Fetched? ==> markers.Keys <= r.markers.Keys && r.effects == []
    // a successful read runs the reconciliation pass over exactly the snapshot read
    ensures fetch.Fetched? ==> r.markers == Reconcile(markers, fetch.docs, replies)
    ensures fetch.Fetched? ==> forall k :: k in markers ==> r.markers[k].handle == markers[k].handle
  {
    match fetch
    case FetchError => FetchPass(markers, [Notice(FetchFailed)])
    case Fetched(docs) => FetchPass(Reconcile(markers, docs, replies), [])
  }

  lemma {:induction false} LastFixIffComplete(docs: seq<Doc>, k: UserId)
    ensures LastFix(docs, k).Some? <==> k in CompleteIds(docs)
    decreases |docs|
  {
    if |docs| > 0 {
      LastFixIffComplete(docs[1..], k);
    }
  }

  /** An id with no complete record in the snapshot keeps its entry (or its absence) untouched. */
  lemma {:induction false} ReconcileUntouched(markers: MarkerMap, docs: seq<Doc>, replies: seq<Option<MarkerId>>, k: UserId)
    requires |replies| == |docs|
    requires k !in CompleteIds(docs)
    ensures k in Reconcile(markers, docs, replies) <==> k in markers
    ensures k in markers ==> Reconcile(markers, docs, replies)[k] == markers[k]
    decreases |docs|
  {
    if |docs| > 0 {
      ReconcileUntouched(Step(markers, docs[0], replies[0]), docs[1..], replies[1..], k);
    }
  }

  /** Every marker of an id present in the snapshot ends at that id's last complete position. */
  lemma {:induction false} ReconcileLastFixWins(markers: MarkerMap, docs: seq<Doc>, replies: seq<Option<MarkerId>>, k: UserId)
    requires |replies| == |docs|
    requires k in Reconcile(markers, docs, replies)
    requires LastFix(docs, k).Some?
    ensures Reconcile(markers, docs, replies)[k].position == LastFix(docs, k).value
    decreases |docs|
  {
    var m1 := Step(markers, docs[0], replies[0]);
    if LastFix(docs[1..], k).Some? {
      ReconcileLastFixWins(m1, docs[1..], replies[1..], k);
    } else {
      LastFixIffComplete(docs[1..], k);
      ReconcileUntouched(m1, docs[1..], replies[1..], k);
    }
  }

  /** When `addMarker` never returns null, every complete record ends with an entry. */
  lemma {:induction false} ReconcileCovers(markers: MarkerMap, docs: seq<Doc>, replies: seq<Option<MarkerId>>)
    requires |replies| == |docs|
    requires forall i :: 0 <= i < |docs| && Complete(docs[i]) ==> replies[i].Some?
    ensures Reconcile(markers, docs, replies).Keys == markers.Keys + CompleteIds(docs)
    decreases |docs|
  {
    if |docs| > 0 {
      var m1 := Step(markers, docs[0], replies[0]);
      forall i | 0 <= i < |docs[1..]| && Complete(docs[1..][i])
        ensures replies[1..][i].Some?
      {
        assert docs[1..][i] == docs[i + 1];
      }
      ReconcileCovers(m1, docs[1..], replies[1..]);
    }
  }

  /** A new entry comes from the first complete record with that id for which the SDK
      returned a marker: it holds that very marker, titled with that record's name. */
  lemma {:induction false} ReconcileNewEntry(markers: MarkerMap, docs: seq<Doc>, replies: seq<Option<MarkerId>>, k: UserId)
    requires |replies| == |docs|
    requires k in Reconcile(markers, docs, replies) && k !in markers
    ensures exists i :: 0 <= i < |docs| && docs[i].id == k && Complete(docs[i])
                        && replies[i] == Some(Reconcile(markers, docs, replies)[k].handle)
                        && Name(docs[i]) == Reconcile(markers, docs, replies)[k].title
                        && forall j :: 0 <= j < i && docs[j].id == k && Complete(docs[j]) ==> replies[j].None?
    decreases |docs|
  {
    var r := Reconcile(markers, docs, replies);
    var m1 := Step(markers, docs[0], replies[0]);
    if k in m1 {
      assert docs[0].id == k && Complete(docs[0]);
      assert replies[0] == Some(r[k].handle);
    } else {
      ReconcileNewEntry(m1, docs[1..], replies[1..], k);
      var i :| 0 <= i < |docs[1..]| && docs[1..][i].id == k && Complete(docs[1..][i])
               && replies[1..][i] == Some(r[k].handle) && Name(docs[1..][i]) == r[k].title
               && forall j :: 0 <= j < i && docs[1..][j].id == k && Complete(docs[1..][j]) ==> replies[1..][j].None?;
      assert docs[i + 1] == docs[1..][i] && replies[i + 1] == replies[1..][i];
      forall j | 0 <= j < i + 1 && docs[j].id == k && Complete(docs[j])
        ensures replies[j].None?
      {
        if j > 0 {
          assert docs[1..][j - 1] == docs[j] && replies[1..][j - 1] == replies[j];
        }
      }
    }
  }

  /** Whatever `addMarker` answers in either pass, a second pass over the same snapshot
      leaves every entry present after the first exactly as it was. */
  lemma {:induction false} ReconcileStable(markers: MarkerMap, docs: seq<Doc>, first: seq<Option<MarkerId>>, second: seq<Option<MarkerId>>)
    requires |first| == |docs| && |second| == |docs|
    ensures var r1 := Reconcile(markers, docs, first);
            var r2 := Reconcile(r1, docs, second);
            forall k :: k in r1 ==> k in r2 && r2[k] == r1[k]
  {
    var r1 := Reconcile(markers, docs, first);
    var r2 := Reconcile(r1, docs, second);
    forall k | k in r1
      ensures k in r2 && r2[k] == r1[k]
    {
      LastFixIffComplete(docs, k);
      if LastFix(docs, k).Some? {
        ReconcileLastFixWins(markers, docs, first, k);
        ReconcileLastFixWins(r1, docs, second, k);
      } else {
        ReconcileUntouched(r1, docs, second, k);
      }
    }
  }

  /** Idempotence: once a pass has left an entry for every complete record (as it does when
      no `addMarker` call returned null, `ReconcileCovers`), a second pass over the same
      snapshot creates nothing and leaves the map exactly as it was, whatever the SDK
      would answer. */
  lemma {:induction false} ReconcileIdempotent(markers: MarkerMap, docs: seq<Doc>, first: seq<Option<MarkerId>>, second: seq<Option<MarkerId>>)
    requires |first| == |docs| && |second| == |docs|
    requires CompleteIds(docs) <= Reconcile(markers, docs, first).Keys
    ensures Reconcile(Reconcile(markers, docs, first), docs, second) == Reconcile(markers, docs, first)
  {
    var r1 := Reconcile(markers, docs, first);
    var r2 := Reconcile(r1, docs, second);
    ReconcileStable(markers, docs, first, second);
    assert r2.Keys == r1.Keys;
  }
}

=== FILE: scenarios.dfy ===
/** Facts that follow from combining the screens: what a profile document looks like to
    the marker reconciliation right after sign-up and right after logout, and how a
    user's marker follows them across passes. */
module Scenarios {
  import opened Wrappers
  import opened Store
  import opened App
  import opened Markers
  import opened Session
  import opened CreateAccount

  /** A new account's document has no coordinates, so reconciliation ignores it until the
      first location report. */
  lemma NewAccountNotShown(markers: MarkerMap, uid: UserId, f: SignUpForm, reply: Option<MarkerId>)
    ensures !Complete(Doc(uid, ProfileRecord(f.nome, f.email, f.senha)))
    ensures Reconcile(markers, [Doc(uid, ProfileRecord(f.nome, f.email, f.senha))], [reply]) == markers
  {
  }

  /** After a successful logout write the document still has a name and now the sentinel
      coordinates: reconciliation keeps showing that user, at (0.0, 0.0), rather than
      dropping the marker. */
  lemma LoggedOutUserShownAtSentinel(db: Database, uid: UserId, markers: MarkerMap, reply: Option<MarkerId>)
    requires uid in db && GetString(db[uid], "nome").Some?
    ensures UpdateDocument(db, uid, SentinelFields).Some?
    ensures var d := Doc(uid, UpdateDocument(db, uid, SentinelFields).value[uid]);
            && Complete(d) && Location(d) == Sentinel
            && (uid in markers ==> var r := Reconcile(markers, [d], [reply]);
                                   uid in r && r[uid].position == Sentinel && r[uid].handle == markers[uid].handle)
  {
  }

  /** A user seen by two passes keeps the marker created by the first: same handle and
      title, moved to the second position. */
  lemma MarkerFollowsUser(markers: MarkerMap, d1: Doc, d2: Doc, h: MarkerId, later: Option<MarkerId>)
    requires d1.id == d2.id && d1.id !in markers
    requires Complete(d1) && Complete(d2)
    ensures var r1 := Reconcile(markers, [d1], [Some(h)]);
            var r2 := Reconcile(r1, [d2], [later]);
            && r1[d1.id] == Marker(h, Name(d1), Location(d1))
            && r2[d1.id] == Marker(h, Name(d1), Location(d2))
  {
  }
}

=== FILE: session.dfy ===
/** The rest of the map screen: the logout button, the user's own marker
    (`fetchUserNameAndPlaceMarker` / `placeMarkerOnMap`) and the one-shot camera
    animation of `getCurrentLocation`. */
module Session {
  import opened Wrappers
  import opened Store
  import opened App
  import opened Markers

  /** The fields the logout handler writes with `update`. */
  const SentinelFields: Record := map["latitude" := Number(Sentinel.latitude), "longitude" := Number(Sentinel.longitude)]

  /** The requests the logout handler can make. */
  predicate LogoutRequest(e: Effect) {
    || e == StopLocationService || e == SignOut || e == Navigate(LoginScreen) || e == Finish
    || e == Notice(LocationUpdateFailed) || e.UpdateDoc? || e.RemoveMarker?
  }

  datatype LogoutResult = LogoutResult(markers: MarkerMap, effects: seq<Effect>)

  /** The logout handler.  `user` is the signed-in user, if any; `writeOk` is whether the
      sentinel `update` succeeded (it is only issued when there is a user). */
  function Logout(user: Option<UserId>, markers: MarkerMap, writeOk: bool): (r: LogoutResult)
    // the location service is stopped first, in every branch
    ensures |r.effects| > 0 && r.effects[0] == StopLocationService
    // no user: straight to sign-out and the login screen, nothing written, nothing removed
    ensures user.None? ==> r.markers == markers && SignOut in r.effects && Navigate(LoginScreen) in r.effects
    ensures user.None? ==> forall e :: e in r.effects ==> !e.UpdateDoc?
    // a user: the sentinel position is written for exactly that user
    ensures user.Some? ==> UpdateDoc(user.value, SentinelFields) in r.effects
    // the write is the first request after stopping the service, so it precedes any sign-out
    ensures user.Some? ==> |r.effects| > 1 && r.effects[1] == UpdateDoc(user.value, SentinelFields)
    // the handler asks for nothing else
    ensures forall e :: e in r.effects ==> LogoutRequest(e)
    ensures forall e :: e in r.effects && e.UpdateDoc? ==> user.Some? && e == UpdateDoc(user.value, SentinelFields)
    // sign-out happens iff there is no user or the write succeeded, and always after the write
    ensures SignOut in r.effects <==> user.None? || writeOk
    ensures user.Some? && writeOk ==> Precedes(r.effects, UpdateDoc(user.value, SentinelFields), SignOut)
    ensures SignOut in r.effects <==> Navigate(LoginScreen) in r.effects
    // success removes exactly the user's own entry
    ensures user.Some? && writeOk ==> r.markers.Keys == markers.Keys - {user.value}
    ensures user.Some? && writeOk ==> forall k :: k in r.markers ==> r.markers[k] == markers[k]
    // the user's marker, if any, is taken off the map, and only on success
    ensures user.Some? && writeOk && user.value in markers ==> RemoveMarker(markers[user.value].handle) in r.effects
    ensures forall e :: e in r.effects && e.RemoveMarker? ==> user.Some? && writeOk && user.value in markers
                                                              && e == RemoveMarker(markers[user.value].handle)
    // failure keeps the map and the session and reports it
    ensures user.Some? && !writeOk ==> r.markers == markers
    ensures Notice(LocationUpdateFailed) in r.effects <==> user.Some? && !writeOk
    // the screen closes on every sign-out path, and only there
    ensures Finish in r.effects <==> SignOut in r.effects
  {
    match user
    case None => NoSession(markers)
    case Some(uid) => if writeOk then SignedOut(uid, markers) else WriteFailed(uid, markers)
  }

  /** The logout handler without a signed-in user: straight to sign-out, nothing written. */
  function NoSession(markers: MarkerMap): (r: LogoutResult)
    ensures r.markers == markers
    ensures |r.effects| > 0 && r.effects[0] == StopLocationService
    ensures SignOut in r.effects && Navigate(LoginScreen) in r.effects && Finish in r.effects
    ensures forall e :: e in r.effects ==> e == StopLocationService || e == SignOut || e == Navigate(LoginScreen) || e == Finish
  {
    LogoutResult(markers, [StopLocationService, SignOut, Navigate(LoginScreen), Finish])
  }

  /** The logout handler when the sentinel write failed: only the error is reported. */
  function WriteFailed(uid: UserId, markers: MarkerMap): (r: LogoutResult)
    ensures r.markers == markers
    ensures |r.effects| > 1 && r.effects[0] == StopLocationService && r.effects[1] == UpdateDoc(uid, SentinelFields)
    ensures Notice(LocationUpdateFailed) in r.effects
    ensures forall e :: e in r.effects ==>
              e == StopLocationService || e == UpdateDoc(uid, SentinelFields) || e == Notice(LocationUpdateFailed)
  {
    LogoutResult(markers, [StopLocationService, UpdateDoc(uid, SentinelFields), Notice(LocationUpdateFailed)])
  }

  /** The logout handler once the sentinel write succeeded: the user's entry and marker go,
      then the session ends and the screen closes. */
  function SignedOut(uid: UserId, markers: MarkerMap): (r: LogoutResult)
    ensures |r.effects| > 1 && r.effects[0] == StopLocationService && r.effects[1] == UpdateDoc(uid, SentinelFields)
    ensures r.markers == markers - {uid}
    ensures SignOut in r.effects && Navigate(LoginScreen) in r.effects && Finish in r.effects
    ensures Precedes(r.effects, UpdateDoc(uid, SentinelFields), SignOut)
    ensures uid in markers ==> RemoveMarker(markers[uid].handle) in r.effects
    ensures forall e :: e in r.effects ==>
              || e == StopLocationService || e == UpdateDoc(uid, SentinelFields)
              || e == SignOut || e == Navigate(LoginScreen) || e == Finish
              || (uid in markers && e == RemoveMarker(markers[uid].handle))
  {
    var write := [StopLocationService, UpdateDoc(uid, SentinelFields)];
    var erase := if uid in markers then [RemoveMarker(markers[uid].handle)] else [];
    var rest := erase + [SignOut, Navigate(LoginScreen), Finish];
    assert (write + rest)[|write + erase|] == SignOut;
    LogoutResult(markers - {uid}, write + rest)
  }

  /** Result of reading the user's own profile document. */
  datatype ProfileFetch = ProfileFetchError | ProfileFetched(doc: Option<Record>)

  /** The title `fetchUserNameAndPlaceMarker` chooses for the own marker. */
  function OwnTitle(fetch: ProfileFetch): (t: string)
    ensures fetch.ProfileFetchError? ==> t == NameErrorTitle
    ensures (fetch.ProfileFetched? && fetch.doc.Some? && GetString(fetch.doc.value, "nome").Some?)
              ==> t == GetString(fetch.doc.value, "nome").value
    ensures fetch.ProfileFetched? && (fetch.doc.None? || GetString(fetch.doc.value, "nome").None?) ==> t == UnknownUser
  {
    match fetch
    case ProfileFetchError => NameErrorTitle
    case ProfileFetched(doc) =>
      if doc.Some? && GetString(doc.value, "nome").Some? then GetString(doc.value, "nome").value else UnknownUser
  }

  /** `currentMarker` together with the set of own markers the code has put on the map
      and not removed yet. */
  datatype OwnMarker = OwnMarker(current: Option<Marker>, onMap: set<MarkerId>)

  /** Every own marker still on the map is the one `currentMarker` refers to. */
  predicate SingleOwnMarker(s: OwnMarker) {
    s.onMap == (if s.current.Some? then {s.current.value.handle} else {})
  }

  /** `placeMarkerOnMap`: removes the previous marker, then adds one (the SDK may return null). */
  function PlaceMarkerOnMap(s: OwnMarker, at: LatLng, title: string, reply: Option<MarkerId>): (s': OwnMarker)
    requires SingleOwnMarker(s)
    ensures SingleOwnMarker(s')
    ensures |s'.onMap| <= 1
    ensures s.current.Some? && (reply.None? || reply.value != s.current.value.handle) ==> s.current.value.handle !in s'.onMap
    ensures reply.None? ==> s'.current.None? && s'.onMap == {}
    ensures reply.Some? ==> s'.current == Some(Marker(reply.value, title, at))
  {
    var removed := if s.current.Some? then s.onMap - {s.current.value.handle} else s.onMap;
    match reply
    case None => OwnMarker(None, removed)
    case Some(h) => OwnMarker(Some(Marker(h, title, at)), removed + {h})
  }

  datatype OwnFetch = OwnFetch(marker: OwnMarker, effects: seq<Effect>)

  /** `fetchUserNameAndPlaceMarker`: without a signed-in user nothing happens; otherwise the
      profile is read and the own marker replaced, with a notice when the read fails. */
  function FetchUserNameAndPlaceMarker(s: OwnMarker, user: Option<UserId>, at: LatLng, fetch: ProfileFetch,
                                       reply: Option<MarkerId>): (r: OwnFetch)
    requires SingleOwnMarker(s)
    ensures SingleOwnMarker(r.marker)
    ensures user.None? ==> r.marker == s && r.effects == []
    ensures user.Some? && reply.Some? ==> r.marker.current == Some(Marker(reply.value, OwnTitle(fetch), at))
    ensures user.Some? && reply.None? ==> r.marker.current.None? && r.marker.onMap == {}
    ensures user.Some? ==> |r.effects| > 0 && r.effects[0] == GetDoc(user.value)
    ensures Notice(NameFetchFailed) in r.effects <==> user.Some? && fetch.ProfileFetchError?
    // the profile is only read, and the failure notice is the only other request
    ensures forall e :: e in r.effects ==> user.Some? && (e == GetDoc(user.value) || e == Notice(NameFetchFailed))
  {
    match user
    case None => OwnFetch(s, [])
    case Some(uid) =>
      OwnFetch(PlaceMarkerOnMap(s, at, OwnTitle(fetch), reply),
               [GetDoc(uid)] + (if fetch.ProfileFetchError? then [Notice(NameFetchFailed)] else []))
  }

  /** Own-marker placements in order: any number of them leaves at most one own marker. */
  datatype Placement = Placement(at: LatLng, title: string, reply: Option<MarkerId>)

  function PlaceAll(s: OwnMarker, ps: seq<Placement>): (s': OwnMarker)
    requires SingleOwnMarker(s)
    ensures SingleOwnMarker(s') && |s'.onMap| <= 1
    ensures |ps| > 0 ==> s'.current == (match ps[|ps| - 1].reply
                                         case None => None
                                         case Some(h) => Some(Marker(h, ps[|ps| - 1].title, ps[|ps| - 1].at)))
    decreases |ps|
  {
    if |ps| == 0 then s
    else PlaceAll(PlaceMarkerOnMap(s, ps[0].at, ps[0].title, ps[0].reply), ps[1..])
  }

  /** The one-shot camera flag `shouldUpdateCamera`. */
  datatype Camera = Camera(shouldUpdate: bool)

  const InitialCamera := Camera(true)

  /** What one location tick sees: no permission (the code asks for it and returns),
      or the provider's last location, possibly null. */
  datatype Reading = PermissionMissing | LastLocation(fix: Option<LatLng>)

  datatype LocationTick = LocationTick(camera: Camera, animateTo: Option<LatLng>, requestPermission: bool,
                                       reportAt: Option<LatLng>)

  /** `getCurrentLocation`: with a fix, the own marker is placed and the position saved at it
      (`reportAt`), and the camera is animated there only while the flag is still set. */
  function GetCurrentLocation(cam: Camera, reading: Reading): (r: LocationTick)
    ensures r.requestPermission <==> reading.PermissionMissing?
    ensures r.reportAt.Some? <==> reading.LastLocation? && reading.fix.Some?
    ensures r.reportAt.Some? ==> r.reportAt == reading.fix
    ensures r.animateTo.Some? <==> cam.shouldUpdate && r.reportAt.Some?
    ensures r.animateTo.Some? ==> r.animateTo == r.reportAt
    ensures r.camera.shouldUpdate <==> cam.shouldUpdate && r.reportAt.None?
  {
    match reading
    case PermissionMissing => LocationTick(cam, None, true, None)
    case LastLocation(None) => LocationTick(cam, None, false, None)
    case LastLocation(Some(p)) =>
      if cam.shouldUpdate then LocationTick(Camera(false), Some(p), false, Some(p))
      else LocationTick(cam, None, false, Some(p))
  }

  /** The camera animations over a run of ticks, in order. */
  function Animations(cam: Camera, readings: seq<Reading>): seq<LatLng>
    decreases |readings|
  {
    if |readings| == 0 then []
    else
      var t := GetCurrentLocation(cam, readings[0]);
      (if t.animateTo.Some? then [t.animateTo.value] else []) + Animations(t.camera, readings[1..])
  }

  predicate HasFix(r: Reading) {
    r.LastLocation? && r.fix.Some?
  }

  /** Once cleared, the flag is never set again: no further animation. */
  lemma {:induction false} ClearedCameraNeverAnimates(readings: seq<Reading>)
    ensures Animations(Camera(false), readings) == []
    decreases |readings|
  {
    if |readings| > 0 {
      ClearedCameraNeverAnimates(readings[1..]);
    }
  }

  /** From the initial state the camera animates at most once, exactly when some tick
      delivers a fix, and then to the first fix delivered. */
  lemma {:induction false} CameraAnimatesOnce(readings: seq<Reading>)
    ensures |Animations(InitialCamera, readings)| <= 1
    ensures |Animations(InitialCamera, readings)| == 1 <==> exists i :: 0 <= i < |readings| && HasFix(readings[i])
    ensures forall i :: 0 <= i < |readings| && HasFix(readings[i]) && (forall j :: 0 <= j < i ==> !HasFix(readings[j]))
              ==> Animations(InitialCamera, readings) == [readings[i].fix.value]
    decreases |readings|
  {
    if |readings| > 0 {
      if HasFix(readings[0]) {
        ClearedCameraNeverAnimates(readings[1..]);
        forall i | 0 <= i < |readings| && HasFix(readings[i]) && (forall j :: 0 <= j < i ==> !HasFix(readings[j]))
          ensures i == 0
        {
        }
      } else {
        CameraAnimatesOnce(readings[1..]);
        assert Animations(InitialCamera, readings) == Animations(InitialCamera, readings[1..]);
        if exists i :: 0 <= i < |readings| && HasFix(readings[i]) {
          var i :| 0 <= i < |readings| && HasFix(readings[i]);
          assert readings[1..][i - 1] == readings[i];
        }
        if exists i :: 0 <= i < |readings[1..]| && HasFix(readings[1..][i]) {
          var i :| 0 <= i < |readings[1..]| && HasFix(readings[1..][i]);
          assert readings[i + 1] == readings[1..][i];
        }
        forall i | 0 <= i < |readings| && HasFix(readings[i]) && (forall j :: 0 <= j < i ==> !HasFix(readings[j]))
          ensures Animations(InitialCamera, readings) == [readings[i].fix.value]
        {
          assert readings[1..][i - 1] == readings[i];
          forall j | 0 <= j < i - 1
            ensures !HasFix(readings[1..][j])
          {
            assert readings[1..][j] == readings[j + 1];
          }
        }
      }
    }
  }
}

=== FILE: store.dfy ===
/** The document store the application talks to: every user owns one document
    `pessoa/{userId}`, a map from field names to values.  Only the two writes the
    application issues are modelled: a full `set` (replaces the document) and an
    `update` (merges fields into an existing document, fails when it is missing). */
module Store {
  import opened Wrappers

  /** Latitude and longitude in degrees.  The application only carries them from the
      location provider to the store and to the map; nothing is ever computed with
      them, so they are only compared for equality. */
  type Degrees = real

  datatype LatLng = LatLng(latitude: Degrees, longitude: Degrees)

  /** The "not sharing" position written on logout. */
  const Sentinel: LatLng := LatLng(0.0, 0.0)

  type UserId = string

  datatype FieldValue = Text(text: string) | Number(number: Degrees)

  type Record = map<string, FieldValue>

  /** One document of a query result: its id and its fields. */
  datatype Doc = Doc(id: UserId, fields: Record)

  type Database = map<UserId, Record>

  /** `document.getString(field)`: the value when the field holds a string, null when the
      field is absent.  A present field of another type makes the SDK throw; the model
      does not represent that failure and reads such a field as absent. */
  function GetString(r: Record, field: string): (s: Option<string>)
    ensures s.Some? <==> field in r && r[field].Text?
    ensures s.Some? ==> r[field] == Text(s.value)
  {
    if field in r && r[field].Text? then Some(r[field].text) else None
  }

  /** `document.getDouble(field)`: the value when the field holds a number, null when the
      field is absent.  As for `GetString`, a field of another type reads as absent here,
      where the SDK would throw. */
  function GetDouble(r: Record, field: string): (d: Option<Degrees>)
    ensures d.Some? <==> field in r && r[field].Number?
    ensures d.Some? ==> r[field] == Number(d.value)
  {
    if field in r && r[field].Number? then Some(r[field].number) else None
  }

  /** `document(uid).set(fields)`: the document becomes exactly `fields`, whatever it held. */
  function SetDocument(db: Database, uid: UserId, fields: Record): (db': Database)
    ensures db'.Keys == db.Keys + {uid}
    ensures db'[uid].Keys == fields.Keys
    ensures forall f :: f in fields ==> db'[uid][f] == fields[f]
    ensures forall u :: u in db && u != uid ==> db'[u] == db[u]
  {
    db[uid := fields]
  }

  /** `document(uid).update(fields)`: fails (None) when the document does not exist;
      otherwise the named fields are overwritten and every other field is kept. */
  function UpdateDocument(db: Database, uid: UserId, fields: Record): (r: Option<Database>)
    ensures r.None? <==> uid !in db
    ensures r.Some? ==> r.value.Keys == db.Keys
    ensures r.Some? ==> r.value[uid].Keys == db[uid].Keys + fields.Keys
    ensures r.Some? ==> forall f :: f in fields ==> r.value[uid][f] == fields[f]
    ensures r.Some? ==> forall f :: f in db[uid] && f !in fields ==> r.value[uid][f] == db[uid][f]
    ensures r.Some? ==> forall u :: u in db && u != uid ==> r.value[u] == db[u]
  {
    if uid !in db then None else Some(db[uid := db[uid] + fields])
  }
}

=== FILE: wrappers.dfy ===
/** The nullable references of the application (a Kotlin `T?`) become `Option<T>`. */
module Wrappers {

  datatype Option<+T> = None | Some(value: T)
}
